=== FILE: README.md ===
# redu, modelled in Dafny

redu is a small state-sharing layer for React. `containerComponent` wraps a top-level
component: the wrapper owns a state, binds a table of action functions to itself, and hands
those actions and itself to its descendants through React's child context.
`presentationalComponent` wraps a descendant: on each render it derives props from the
nearest container's state and props and from its actions, and merges them under the
component's own props. The repository's example apps build on this. They include two
undo-history stacks (a never-empty one and one that can become empty), colour-picker stores
that record their changes in those stacks, GitHub search stores, and the status lines that
describe the search state.

This project models:

- `redu.dfy` (module `Redu`). Covers option merging, the three-way prop merge, the
  constructor's binding loop with its reserved-name error, the shared `_actions` table, the
  child context, and presentational rendering. A JavaScript object is a `map<string, V>`.
  `Object.assign(a, b, c)` is `a + b + c`. A bound function is `Bind(action, instance)`.
  The order of `Object.keys` is the `keys` sequence of an `ActionTable`.
- `substore_undo.dfy` (module `SubstoreUndo`). Models the substore-undo `HistoryStore` and
  its `ColorListStore`. Both are one module because the colour store calls the history
  store's actions while the history store uses the colour store's initial state.
- `undo_app.dfy` (module `UndoApp`). Models the undo example's history and colour stores.
- `readme_redu_substore.dfy` (module `ReadmeReduSubstore`). Models the readme-redu-substore
  colour store.
- `history_variants.dfy`. Compares the two history removals.
- `github_users_page_store.dfy`, `substore_page_store.dfy` and `user_sub_store.dfy`. Model
  the search stores.
- `github_users_status.dfy` and `substore_status.dfy`. Model the status lines.
- `js_array.dfy`, `decimal.dfy` and `wrappers.dfy`. Shared helpers: the index-filter the
  history stores use, `${n}` for the array lengths the status lines format, and `Option`.

`setState` is modelled as a synchronous shallow merge followed by its callback, as the
example code assumes. Stores whose state has fixed fields are classes with those fields,
and a merge assigns exactly the fields it names. Colour states and history entries are
objects of strings (`map<string, string>`), because the history records partial objects
and the store merges them back in. `setState(undefined)` merges nothing. A value handed to
a callback is returned by the method that models the call.

The main proved facts:

- Props are the right-biased union state < actions < own props.
- With default options the wrapped component gets exactly its own props.
- Construction stops at the first reserved action name. The names before it stay bound in
  the shared `_actions`.
- A second instance takes over every action in the shared table.
- The substore-undo history is never empty. `addToHistory` followed by `removeFromHistory`
  gives back the history. A colour change followed by undo restores the colour when the
  entry before the change recorded a colour, as every entry `changeColor` records and the
  initial entry do. After `setStateAndHistory()` recorded `{}`, undo keeps the new colour
  (`SubstoreUndo.UndoAfterEmptyEntryKeepsColor`).
- In the undo example, removal from a one-entry history empties it, and a second removal
  restores the initial history.
- Undo merges back only the keys of the entry it returns to. A key that only the removed
  entry set keeps its value (`SubstoreUndo.UndoKeepsKeysTheEarlierEntryLacks`).
- Status messages are correct case by case, with both directions of each if-and-only-if.
  The "Found N users." text determines N.

## Model

| member | source | states |
|---|---|---|
| `Redu.Assign` | redu.js:130-134 | The derived props hold every key of the three maps. An own prop beats an action-derived prop, which beats a state-derived prop. |
| `Redu.ResolveMappers` | redu.js:167-172 | A supplied mapper replaces its default. An omitted one is the default mapper, which returns `{}`. |
| `Redu.NoStateProps` | redu.js:57-58 | The default `containerStateToProps` derives no prop, whatever the state and props. |
| `Redu.NoActionProps` | redu.js:57-60 | The default `actionsToProps` derives no prop, whatever the actions. |
| `Redu.ContainerClass.constructor` | redu.js:94-103 | Omitted `actions`/`initialState` become `{}`. The mappers are merged as above. The shared `_actions` starts empty. |
| `Redu.FirstReserved` | redu.js:113-117 | Gives the first position, in key order, of `render`, `constructor` or `getChildContext`. `None` exactly when no name is reserved. |
| `Redu.ReservedMessageParts` | redu.js:116 | The thrown message holds the action's name, quoted between a fixed opening and a fixed closing, so the name can be read back out of it. |
| `Redu.ReservedMessageNamesAction` | redu.js:116 | Two messages are equal exactly when they name the same action. |
| `Redu.BindAll` | redu.js:113-121 | After the loop has visited some names, exactly those names are added, each bound to the instance. Other keys are untouched. |
| `Redu.BoundCount` | redu.js:113-121 | The loop binds every name when none is reserved, and otherwise exactly the names before the first reserved one. |
| `Redu.BindActions` | redu.js:113-121 | The loop over the names in key order binds the first `BoundCount` names into `_actions` and onto the instance, each to the instance. It ends without error when no name is reserved, and otherwise with the message naming the first reserved action. |
| `Redu.ContainerClass.New` | redu.js:107-122 | The new instance's state is `initialState`. The shared `_actions` and the instance's members hold exactly the bindings of the first `BoundCount` names. Construction throws the message naming the first reserved action, if there is one. |
| `Redu.BoundEverywhere` | redu.js:119-120 | After a successful construction, every action is a key of `_actions` and a member of the instance, and both hold the same function bound to the instance. |
| `Redu.SecondInstanceTakesOverActions` | redu.js:103-121 | A second instance from the same class rebinds every shared action to itself. A context the first instance handed out before that construction then hands out actions bound to the second, while the first instance's own members are unchanged. |
| `Redu.Container.constructor` | redu.js:107-111 | An instance keeps its props and starts with a copy of `initialState` and no members. |
| `Redu.Container.Render` | redu.js:128-135 | The container's render merges mapped state, mapped shared actions and its own props. Own props always survive. |
| `Redu.Container.GetChildContext` | redu.js:142-145 | The context is the shared `_actions` object itself (not a copy) and the instance. It reads the table's current bindings. |
| `Redu.Presentational.Render` | redu.js:181-191 | Own props survive. The key set is the union of the mapped container state/props, the mapped context actions and the own props. |
| `Redu.PresentationalComponent` | redu.js:167-172 | The component uses the options merged over the defaults. |
| `Redu.ContainerDefaultsPassOwnProps` | redu.js:57-78 | With both mappers omitted, the container's render yields exactly its own props. |
| `Redu.PresentationalDefaultsPassOwnProps` | redu.js:57-60 | With both mappers omitted, a presentational render yields exactly its own props, whatever the context. |
| `Redu.PresentationalSeesContainer` | redu.js:183-190 | Under a container's child context, a presentational component derives props from that container's current state and props and from the shared actions. |
| `JsArray.FilterIndexBelow` | examples/substore-undo/src/stores/HistoryStore.js:44-46 | Filtering by `index < bound` keeps exactly the first `bound` entries, in order. A non-positive bound keeps none. |
| `JsArray.LastOrUndefined` | examples/undo/src/app.js:86 | The last element, which is absent exactly when the array is empty. |
| `Decimal.Show` | examples/github-users/src/components/Status.jsx:17 | For an array length `n` (below 2^32), `${n}` is a non-empty string of digits without a leading zero. It has one digit exactly when `n < 10`. |
| `Decimal.ValueOfShow` | examples/github-users/src/components/Status.jsx:17 | Reading `${n}` back as a number gives `n`. |
| `Decimal.ShowInjective` | examples/substore/src/components/Status.jsx:19 | Different counts are shown as different text. |
| `JsArray.Appended` | examples/substore-undo/src/stores/HistoryStore.js:32-36 | `concat(entry)` keeps every earlier entry, grows the history by one and ends with `entry`. The undo example's `addToHistory` (examples/undo/src/app.js:66-70) uses the same updater. |
| `SubstoreUndo.Removed` | examples/substore-undo/src/stores/HistoryStore.js:42-53 | The result is never empty. With two or more entries it drops exactly the last one. Otherwise it is `[ColorListStore.initialState]`. |
| `SubstoreUndo.RemovedUndoesAppended` | examples/substore-undo/src/stores/HistoryStore.js:30-53 | On a non-empty history, adding then removing gives back the same history. |
| `SubstoreUndo.HistoryStore.constructor` | examples/substore-undo/src/stores/HistoryStore.js:22-24 | The history starts as `[ColorListStore.initialState]`. |
| `SubstoreUndo.HistoryStore.HasHistory` | examples/substore-undo/src/stores/HistoryStore.js:27-29 | On a non-empty history, `hasHistory` is true exactly when an undo would shorten the history, rather than fall back to the initial entry. |
| `SubstoreUndo.HistoryStore.AddToHistory` | examples/substore-undo/src/stores/HistoryStore.js:30-38 | Appends the entry and hands exactly that entry to the callback. The history is then non-empty, and `hasHistory` holds if it was non-empty before. |
| `SubstoreUndo.HistoryStore.RemoveFromHistory` | examples/substore-undo/src/stores/HistoryStore.js:40-57 | Applies `Removed`. The history stays non-empty, and the callback gets the new last entry. |
| `SubstoreUndo.SubscriberProps` | examples/substore-undo/src/stores/ColorListSubStore.js:46-52 | The props are exactly `hasHistory`, `addToHistory` and `removeFromHistory`, each the history store's action of that name. |
| `SubstoreUndo.ColorListStore.constructor` | examples/substore-undo/src/stores/ColorListSubStore.js:9-15 | The store starts with `selectedColor` set to the first rainbow colour, `red`. Under a history store that still holds `[initialState]`, the store starts out showing its last history entry (`Valid`). |
| `SubstoreUndo.ColorListStore.SetStateAndHistory` | examples/substore-undo/src/stores/ColorListSubStore.js:18-23 | Records the partial state, `{}` when omitted, then merges exactly that state. The store keeps showing its last history entry, and `hasHistory` holds. |
| `SubstoreUndo.ColorListStore.ChangeColor` | examples/substore-undo/src/stores/ColorListSubStore.js:24-29 | Records `{selectedColor: color}` and no other field. Only `selectedColor` changes. |
| `SubstoreUndo.ColorListStore.Undo` | examples/substore-undo/src/stores/ColorListSubStore.js:30-34 | Removes the last entry and merges the new last entry into the state. The store keeps showing its last history entry. |
| `SubstoreUndo.UndoRestoresColor` | examples/substore-undo/src/stores/ColorListSubStore.js:24-34 | A colour change followed by undo restores the history. It also restores the previously selected colour when the entry before the change recorded a colour, as every entry `changeColor` records and the initial entry do. |
| `SubstoreUndo.UndoAfterEmptyEntryKeepsColor` | examples/substore-undo/src/stores/ColorListSubStore.js:18-34 | When the entry before the change recorded nothing, as `setStateAndHistory()` records `{}`, a colour change followed by undo restores the history but keeps the new colour. |
| `SubstoreUndo.UndoKeepsKeysTheEarlierEntryLacks` | examples/substore-undo/src/stores/ColorListSubStore.js:17-34 | Undo does not take back a key that only the removed partial entry set. |
| `UndoApp.Removed` | examples/undo/src/app.js:74-84 | On a non-empty history, drops exactly the last entry, so a one-entry history becomes empty. On an empty history, gives `historyInitialState`. |
| `UndoApp.HasHistory` | examples/undo/src/app.js:45 | On a non-empty history, true exactly when an undo leaves an entry to show. False on an empty one. |
| `UndoApp.RemovedUndoesAppended` | examples/undo/src/app.js:63-84 | Adding then removing gives back any history, the empty one included. |
| `UndoApp.TwoRemovalsFromInitial` | examples/undo/src/app.js:59-87 | From `[initialState]`, one removal gives `[]` with an undefined entry for the callback. A second removal restores `[initialState]`. |
| `UndoApp.HistoryStore.constructor` | examples/undo/src/app.js:59-61 | The history starts as `[initialState]`. |
| `UndoApp.HistoryStore.AddToHistory` | examples/undo/src/app.js:64-71 | Appends the entry. `hasHistory` then holds exactly when the history was non-empty before. |
| `UndoApp.HistoryStore.RemoveFromHistory` | examples/undo/src/app.js:72-88 | Applies `Removed`, then hands the callback the last entry, or undefined when the history is empty. |
| `UndoApp.ColorStore.constructor` | examples/undo/src/app.js:9-15 | The store starts with `selectedColor` set to the first colour, `red`. Under a history store that still holds `historyInitialState`, it starts out showing its last history entry (`Valid`). |
| `UndoApp.ColorStore.ChangeColor` | examples/undo/src/app.js:18-25 | Sets `selectedColor`, then appends the whole new state to the history. The store keeps showing its last history entry. |
| `UndoApp.ColorStore.Undo` | examples/undo/src/app.js:26-30 | Removes the last history entry and merges the entry delivered, or nothing when the history became empty. |
| `UndoApp.UndoRestoresColor` | examples/undo/src/app.js:18-30 | A colour change followed by undo restores the history and, when the store showed a last entry recording a colour, the previously selected colour. |
| `UndoApp.ChangeAfterEmptiedHistoryStays` | examples/undo/src/app.js:18-30 | Once undo has emptied the history, undoing a later colour change empties it again, hands back `undefined` and keeps the new colour. |
| `HistoryVariants.RemovalsAgreeExceptOnOneEntry` | examples/undo/src/app.js:72-84 | The two history stores remove alike, except on a one-entry history. There substore-undo falls back to the initial entry and the undo example empties the list. |
| `ReadmeReduSubstore.SubscriberProps` | examples/readme-redu-substore/src/stores/ColorListSubStore.js:46-53 | The props are exactly the history store's `hasHistory`, `addToHistory` and `removeFromHistory`. |
| `ReadmeReduSubstore.ColorListStore.constructor` | examples/readme-redu-substore/src/stores/ColorListSubStore.js:9-15 | The store starts with `selectedColor` set to `red`. |
| `ReadmeReduSubstore.ColorListStore.SetStateAndHistory` | examples/readme-redu-substore/src/stores/ColorListSubStore.js:18-23 | Sends the partial state, `{}` when omitted, to `addToHistory`. The state does not change until the callback. |
| `ReadmeReduSubstore.ColorListStore.ChangeColor` | examples/readme-redu-substore/src/stores/ColorListSubStore.js:24-29 | Records an object whose only key is `selectedColor`, holding `color`. |
| `ReadmeReduSubstore.ColorListStore.Undo` | examples/readme-redu-substore/src/stores/ColorListSubStore.js:30-34 | Asks the history store to remove its last entry. |
| `ReadmeReduSubstore.ColorListStore.ReceiveEntry` | examples/readme-redu-substore/src/stores/ColorListSubStore.js:20-22 | The callback merges the entry handed back, and merges nothing for `undefined`. |
| `GithubUsersPageStore.InitialState` | examples/github-users/src/stores/PageStore.js:22-26 | The initial state is an empty query, no user and no results. |
| `GithubUsersPageStore.PageStore.constructor` | examples/github-users/src/stores/PageStore.js:127 | The store starts in the initial state. |
| `GithubUsersPageStore.PageStore.DisplayUser` | examples/github-users/src/stores/PageStore.js:61-64 | Sets the displayed user and changes nothing else. |
| `GithubUsersPageStore.PageStore.Reset` | examples/github-users/src/stores/PageStore.js:70-73 | Restores all three fields to their initial values. |
| `GithubUsersPageStore.ResetIsIdempotent` | examples/github-users/src/stores/PageStore.js:70-73 | A second reset leaves exactly the state the first reset left. |
| `GithubUsersPageStore.PageStore.Search` | examples/github-users/src/stores/PageStore.js:84-89 | Sets only the query, and requests the debounced search for that query. |
| `GithubUsersPageStore.PageStore.DebouncedSearch` | examples/github-users/src/stores/PageStore.js:101-106 | Sets the query, marks the results as being fetched, and sends that query. |
| `GithubUsersPageStore.PageStore.ReceiveResults` | examples/github-users/src/stores/PageStore.js:111-116 | Sets only the results: `items`, or `[]` when absent. |
| `SubstorePageStore.DefaultProps` | examples/substore/src/stores/PageStore.js:11-23 | The default `entity` is `user`. |
| `SubstorePageStore.InitialState` | examples/substore/src/stores/PageStore.js:25-29 | The initial state is an empty query, no user and no results. |
| `SubstorePageStore.PageStore.constructor` | examples/substore/src/stores/PageStore.js:9 | The store starts in the initial state. |
| `SubstorePageStore.PageStore.DisplayUser` | examples/substore/src/stores/PageStore.js:33-36 | Changes only the displayed user. |
| `SubstorePageStore.PageStore.Reset` | examples/substore/src/stores/PageStore.js:38-41 | Restores `PageStore.initialState`. |
| `SubstorePageStore.PageStore.Search` | examples/substore/src/stores/PageStore.js:43-48 | Sets only the query, and requests its debounced search. |
| `SubstorePageStore.PageStore.DebouncedSearch` | examples/substore/src/stores/PageStore.js:50-55 | Sets the query and marks the results as being fetched, then sends the query. |
| `SubstorePageStore.PageStore.ReceiveResults` | examples/substore/src/stores/PageStore.js:57-62 | Sets only `listItems`: `items`, or `[]` when absent. |
| `UserSubStore.InitialState` | examples/substore/src/stores/UserSubStore.js:14-17 | The initial state is an empty query and no results. |
| `UserSubStore.DefaultProps` | examples/substore/src/stores/UserSubStore.js:10-12 | The default `entity` prop is `repo`. The subscribed user and `utils` are kept as given. |
| `UserSubStore.SubscriberProps` | examples/substore/src/stores/UserSubStore.js:52-57 | `user` is the page's `userToDisplay`, and `utils` is the page's `utils` prop. `entity` is not passed on, so it stays `repo`. |
| `UserSubStore.UserStore.constructor` | examples/substore/src/stores/UserSubStore.js:8-17 | The store starts in the initial state. |
| `UserSubStore.UserStore.Search` | examples/substore/src/stores/UserSubStore.js:27-32 | Sets only the query (`''` when omitted) and requests its debounced search. |
| `UserSubStore.UserStore.Reset` | examples/substore/src/stores/UserSubStore.js:22-25 | Is `search()`: sets the query to `''` and requests a search for `''`. |
| `UserSubStore.UserStore.DebouncedSearch` | examples/substore/src/stores/UserSubStore.js:34-41 | Sets the query and marks the results as being fetched. Then it searches the displayed user's repositories, or sends nothing when there is no user. |
| `UserSubStore.UserStore.ReceiveResults` | examples/substore/src/stores/UserSubStore.js:41-46 | Sets only `listItems`: `items`, or `[]` when absent. |
| `GithubUsersStatus.FoundMessage` | examples/github-users/src/components/Status.jsx:17 | The message is the count's decimal digits between `Found ` and ` users.`. |
| `GithubUsersStatus.FoundMessageIsDistinct` | examples/github-users/src/components/Status.jsx:10-19 | A found-message is never the prompt or the searching message. |
| `GithubUsersStatus.FoundMessageDeterminesCount` | examples/github-users/src/components/Status.jsx:17 | Different user counts give different found-messages. |
| `GithubUsersStatus.Status` | examples/github-users/src/components/Status.jsx:10-19 | The prompt appears exactly when the query is empty, whatever the list. `Searching...` appears exactly when the query is non-empty and the list is null. Otherwise the message is `Found N users.` with N the list length. |
| `GithubUsersStatus.ResetButtonDisplay` | examples/github-users/src/components/Status.jsx:31 | The reset button shows exactly when the results are non-null, including an empty list. |
| `GithubUsersStatus.DerivedProps` | examples/github-users/src/components/Status.jsx:52-67 | `searchQuery` and `usersListItems` are copied from the state, and `reset` from the actions. |
| `GithubUsersStatus.ShownAfterReset` | examples/github-users/src/components/Status.jsx:10-31 | After a reset, the line prompts for a username and hides the button. |
| `GithubUsersStatus.ShownWhileFetching` | examples/github-users/src/components/Status.jsx:14-16 | After a debounced search for a non-empty query, the line reads `Searching...` and hides the button. |
| `GithubUsersStatus.ShownAfterResults` | examples/github-users/src/components/Status.jsx:17 | When results for a non-empty query arrive, the line counts them and shows the button. |
| `SubstoreStatus.PluralSuffix` | examples/substore/src/components/Status.jsx:14-17 | The suffix is empty exactly for one item, and `s` otherwise. |
| `SubstoreStatus.FoundMessage` | examples/substore/src/components/Status.jsx:19 | The message is `Found `, the count's digits, a space, the entity, its plural suffix and a full stop, each at a fixed place. |
| `SubstoreStatus.PromptMessage` | examples/substore/src/components/Status.jsx:23 | The message is the entity between `Please enter a GitHub ` and a full stop. |
| `SubstoreStatus.MessagesAreDistinct` | examples/substore/src/components/Status.jsx:10-29 | A found-message, a prompt and `Searching...` never read as one another, whatever the counts and entities. |
| `SubstoreStatus.FoundMessageDeterminesCount` | examples/substore/src/components/Status.jsx:19 | For one entity, different counts give different found-messages. |
| `SubstoreStatus.MakeStatus` | examples/substore/src/components/Status.jsx:10-29 | A non-empty list is counted whatever the query. An empty query with a null or empty list prompts for the entity. A non-empty query with a null list reads `Searching...`. There is no message exactly when the query is non-empty and the list is empty. |
| `SubstoreStatus.ResetButtonDisplay` | examples/substore/src/components/Status.jsx:41 | The reset button shows exactly when `listItems` is non-null. |
| `SubstoreStatus.DerivedProps` | examples/substore/src/components/Status.jsx:52-59 | The props are the store's query and list, the store's `entity` prop and its `reset` action. |
| `SubstoreStatus.OneUserFound` | examples/substore/src/components/Status.jsx:12-20 | Under the page store, one result reads `Found 1 user.` |
| `SubstoreStatus.ThreeReposFound` | examples/substore/src/components/Status.jsx:12-20 | Under the user sub-store, three results read `Found 3 repos.` |
| `SubstoreStatus.UserResetKeepsCountUntilFetch` | examples/substore/src/components/Status.jsx:12-24 | After the user sub-store's reset, earlier results are still counted. Once the debounced search marks them as being fetched, the line prompts for a repository. |

## Left out

- React itself is not modelled: `React.createElement`, the context mechanism and the PropTypes declarations (`contextTypes`, `childContextTypes`). The child context is the `Context` value and the presentational component reads it directly.
- Re-render suppression in `DoNotRenderHistoryStore.shouldComponentUpdate` is not modelled. It is a lifecycle hook and does not change state.
- `setState` asynchrony and batching are not modelled. Each `setState` is applied at once, then its callback runs.
- Debouncing, `fetch` and the GitHub URLs are I/O and timing. `Search` returns the query it requests a debounced search for. `DebouncedSearch` returns what it sends. The response is the separate event `ReceiveResults`, whose `items` is an optional list. A truthy `items` that is not an array is not modelled.
- A stale response can overwrite newer results because `ReceiveResults` ignores the query. The model has this behaviour, but no lemma states it.
- `createStore`, `subscribe`, `storeOf`, `stateManagerOf` and `createSubscriber` are not defined in `redu.js` and are not part of this model. Their mapping callbacks are modelled as plain functions, and the sub-store's history actions as a reference to the history store object.
- The history store that readme-redu-substore's colour store subscribes to is not part of this model. That store's calls are returned as `HistoryCall` values, and the entry handed back arrives through `ReceiveEntry`.
- The example JSX components (Search, User, UsersList, UsersListItem, List, ReposListItem, Page, Color, ColorList, ColorOptions) are markup and one-line projections and are not modelled.
- examples/github-users/src/app.js repeats the actions of its `PageStore.js`, and `PageStore.js` is the file modelled.
- The single-setter readme-redu store, the DOM bootstrap files and `webpack.config.js` are not modelled.
- Redu.ResolveMappers: an option key given explicitly as `undefined` is not modelled. `Object.assign` would copy that `undefined` over the default, and the model treats it like an omitted key.
- Redu.ContainerClass.New: an action named like a field of the instance (`state`, `props`, `setState`, `context`, …) overwrites that field in the source, since actions become members of the instance. The model keeps actions in a separate `members` map, so it still promises `state == initialState` and keeps the own props for such an action.
- Redu.ContainerClass.New: requires the `actions` option to be a proper key table (`ActionTable.Valid`). Actions that are not functions, whose `.bind` would throw, are not modelled.
- Redu.Assign: `Object.assign` writes into the object `containerStateToProps` returned. A mapper that returns its `state` argument itself would make both renders merge the action-derived props and own props into the container's live state. The model's merge builds a new map and does not capture that aliasing. Every mapper in the examples returns a fresh object.
- Redu.Container.Render: the wrapped `Component` and the element React builds from it are left out. Only the props handed to it are modelled.
- JsArray.Appended: `Array.prototype.concat` flattens an array argument. History entries are always objects here, so that case is not modelled.
- Decimal.Show: gives plain digits for every natural number. JavaScript writes numbers from 10^21 up in exponent notation (`${1e21}` is `1e+21`). The only numbers formatted here are array lengths, which stay below 2^32, so that case does not arise.
- GithubUsersStatus.Status: the list is typed as an optional array, so a missing (`undefined`) `usersListItems` is not modelled. In JavaScript that case would throw when reading `.length`.
- Action-to-action calls through `this.actions` are direct method calls in the model.
- UserSubStore.UserStore.DebouncedSearch: with no user displayed, `this.props.user.login` throws a TypeError after the state was set. The model sends no request (`None`) and does not model the exception.

=== FILE: decimal.dfy ===
/**
 * The decimal text JavaScript produces for a non-negative integer below 10^21 in a
 * template literal (`${n}`): its digits, most significant first, without leading zeros.
 * The only numbers formatted this way are array lengths, which stay below 2^32; from
 * 10^21 up JavaScript switches to exponent notation, which `Show` does not produce.
 */
module Decimal {

  predicate IsDigit(c: char) {
    '0' <= c <= '9'
  }

  predicate AllDigits(s: string) {
    forall i :: 0 <= i < |s| ==> IsDigit(s[i])
  }

  function DigitChar(d: nat): (c: char)
    requires d < 10
    ensures IsDigit(c) && (c as int) - ('0' as int) == d
  {
    "0123456789"[d]
  }

  /** `${n}` for an array length (plain digits, as JavaScript writes every integer below 10^21). */
  function Show(n: nat): (s: string)
    ensures |s| > 0 && AllDigits(s)
    ensures |s| > 1 ==> s[0] != '0'
    ensures n < 10 <==> |s| == 1
    decreases n
  {
    if n < 10 then [DigitChar(n)] else Show(n / 10) + [DigitChar(n % 10)]
  }

  /** Reads a string of digits back as the number it denotes. */
  function Value(s: string): nat
    requires AllDigits(s)
    decreases |s|
  {
    if s == [] then 0
    else Value(s[..|s| - 1]) * 10 + ((s[|s| - 1] as int) - ('0' as int))
  }

  /** The text determines the number: reading `${n}` back gives `n`. */
  lemma {:induction false} ValueOfShow(n: nat)
    ensures Value(Show(n)) == n
    decreases n
  {
    if n >= 10 {
      var s := Show(n);
      assert s[..|s| - 1] == Show(n / 10);
      ValueOfShow(n / 10);
    }
  }

  /** Different numbers are shown differently. */
  lemma ShowInjective(m: nat, n: nat)
    ensures Show(m) == Show(n) ==> m == n
  {
    ValueOfShow(m);
    ValueOfShow(n);
  }
}

=== FILE: github_users_page_store.dfy ===
/**
 * The store of the github-users example: the search query, the user shown on the right, and
 * the search results (`None` while nothing was searched or a search is being fetched).
 *
 * `setState` merges the named fields and leaves the others as they were. The debounce timer
 * and the GitHub request are outside the model: `Search` returns the query whose debounced
 * search it requests, `DebouncedSearch` returns the query it sends, and the arrival of the
 * response is the separate event `ReceiveResults`.
 */
module GithubUsersPageStore {

  import opened Wrappers

  datatype PageState<User, Item> = PageState(
    searchQuery: string,
    userToDisplay: Option<User>,
    usersListItems: Option<seq<Item>>)

  /** `initialState`: empty query, no user, no results. */
  function InitialState<User, Item>(): (s: PageState<User, Item>)
    ensures s.searchQuery == "" && s.userToDisplay.None? && s.usersListItems.None?
  {
    PageState("", None, None)
  }

  class PageStore<User, Item> {
    var searchQuery: string
    var userToDisplay: Option<User>
    var usersListItems: Option<seq<Item>>

    function State(): PageState<User, Item>
      reads this
    {
      PageState(searchQuery, userToDisplay, usersListItems)
    }

    constructor ()
      ensures State() == InitialState()
    {
      searchQuery, userToDisplay, usersListItems := "", None, None;
    }

    /** The action `displayUser(userToDisplay)`. */
    method DisplayUser(user: User)
      modifies this
      ensures State() == old(State()).(userToDisplay := Some(user))
    {
      userToDisplay := Some(user);
    }

    /** The action `reset`: `setState(initialState)`. */
    method Reset()
      modifies this
      ensures State() == InitialState()
    {
      var initial := InitialState<User, Item>();
      searchQuery, userToDisplay, usersListItems := initial.searchQuery, initial.userToDisplay, initial.usersListItems;
    }

    /** The action `search(searchQuery)`: set the query, then request `debouncedSearch(searchQuery)`. */
    method Search(query: string) returns (requested: string)
      modifies this
      ensures State() == old(State()).(searchQuery := query)
      ensures requested == query
    {
      searchQuery := query;
      requested := query;
    }

    /**
     * The debounced action: set the query and mark the results as being fetched, then send
     * the query to the search API.
     */
    method DebouncedSearch(query: string) returns (sent: string)
      modifies this
      ensures State() == old(State()).(searchQuery := query, usersListItems := None)
      ensures sent == query
    {
      searchQuery, usersListItems := query, None;
      sent := query;
    }

    /** The response handler: `setState({usersListItems: results.items || []})`. */
    method ReceiveResults(items: Option<seq<Item>>)
      modifies this
      ensures State() == old(State()).(usersListItems := Some(items.GetOr([])))
    {
      usersListItems := Some(items.GetOr([]));
    }
  }

  /** Resetting twice is resetting once: `once` and `twice` are the states after each reset. */
  method ResetIsIdempotent<User, Item>(store: PageStore<User, Item>) returns (once: PageState<User, Item>, twice: PageState<User, Item>)
    modifies store
    ensures twice == once && store.State() == twice
  {
    store.Reset();
    once := store.State();
    store.Reset();
    twice := store.State();
  }
}

=== FILE: github_users_status.dfy ===
/**
 * The status line of the github-users example: a message chosen from the search query and
 * the results, and a reset button shown once there are results.
 */
module GithubUsersStatus {

  import opened Wrappers
  import Decimal
  import Page = GithubUsersPageStore

  const PromptMessage: string := "Please enter a GitHub username."
  const SearchingMessage: string := "Searching..."

  /** `Found ${n} users.`: the count's decimal digits between a fixed opening and closing. */
  function FoundMessage(count: nat): (message: string)
    ensures |message| == 6 + |Decimal.Show(count)| + 7
    ensures message[..6] == "Found " && message[|message| - 7..] == " users."
    ensures message[6..|message| - 7] == Decimal.Show(count)
  {
    "Found " + Decimal.Show(count) + " users."
  }

  /** A found-message never reads as the prompt or as the searching message. */
  lemma FoundMessageIsDistinct(count: nat)
    ensures FoundMessage(count) != PromptMessage && FoundMessage(count) != SearchingMessage
  {
    assert FoundMessage(count)[0] == 'F';
  }

  /** The found-message tells how many users were found: different counts read differently. */
  lemma FoundMessageDeterminesCount(m: nat, n: nat)
    ensures FoundMessage(m) == FoundMessage(n) ==> m == n
  {
    if FoundMessage(m) == FoundMessage(n) {
      Decimal.ShowInjective(m, n);
    }
  }

  /**
   * `status()`: an empty query asks for a username whatever the results are; otherwise
   * missing results mean a search is running, and present ones are counted.
   */
  function Status<Item>(searchQuery: string, usersListItems: Option<seq<Item>>): (message: string)
    ensures message == PromptMessage <==> searchQuery == ""
    ensures message == SearchingMessage <==> searchQuery != "" && usersListItems.None?
    ensures searchQuery != "" && usersListItems.Some? ==> message == FoundMessage(|usersListItems.value|)
  {
    if searchQuery == "" then PromptMessage
    else if usersListItems.None? then SearchingMessage
    else
      FoundMessageIsDistinct(|usersListItems.value|);
      FoundMessage(|usersListItems.value|)
  }

  /** The reset button's `display` style: shown for any results, even an empty list. */
  function ResetButtonDisplay<Item>(usersListItems: Option<seq<Item>>): (display: string)
    ensures display == "inline-block" <==> usersListItems.Some?
    ensures display == "none" <==> usersListItems.None?
  {
    if usersListItems.Some? then "inline-block" else "none"
  }

  /** The props the wrapper derives: the query and results from the state, `reset` from the actions. */
  datatype StatusProps<Item, F> = StatusProps(searchQuery: string, usersListItems: Option<seq<Item>>, reset: Option<F>)

  function DerivedProps<User, Item, F>(state: Page.PageState<User, Item>, actions: map<string, F>): (props: StatusProps<Item, F>)
    ensures props.searchQuery == state.searchQuery && props.usersListItems == state.usersListItems
    ensures "reset" in actions ==> props.reset == Some(actions["reset"])
    ensures "reset" !in actions ==> props.reset == None
  {
    StatusProps(state.searchQuery, state.usersListItems, if "reset" in actions then Some(actions["reset"]) else None)
  }

  /**
   * What `render()` shows for a store state: the message and the reset button's `display`.
   * A helper for the three `Shown*` lemmas below; they do not use the `reset` action, so the
   * action type is fixed to `bool` and the action table is empty.
   */
  function Shown<User, Item>(state: Page.PageState<User, Item>): (string, string) {
    var props := DerivedProps<User, Item, bool>(state, map[]);
    (Status(props.searchQuery, props.usersListItems), ResetButtonDisplay(props.usersListItems))
  }

  /** After `reset` (and initially) the line asks for a username and hides the button. */
  lemma ShownAfterReset<User, Item>()
    ensures Shown(Page.InitialState<User, Item>()) == (PromptMessage, "none")
  {
  }

  /** While a non-empty query is being fetched the line says so and hides the button. */
  lemma ShownWhileFetching<User, Item>(state: Page.PageState<User, Item>, query: string)
    requires query != ""
    ensures Shown(state.(searchQuery := query, usersListItems := None)) == (SearchingMessage, "none")
  {
  }

  /** Once results for a non-empty query arrive, they are counted and the button shows. */
  lemma ShownAfterResults<User, Item>(state: Page.PageState<User, Item>, items: Option<seq<Item>>)
    requires state.searchQuery != ""
    ensures Shown(state.(usersListItems := Some(items.GetOr([]))))
            == (FoundMessage(|items.GetOr([])|), "inline-block")
  {
  }
}

=== FILE: history_variants.dfy ===
/** How the two history stores' removals differ. */
module HistoryVariants {

  import SubstoreUndo
  import UndoApp

  /**
   * On a history of two or more entries both removals drop the last entry; on a one-entry
   * history the substore-undo store falls back to the initial entry at once, while the undo
   * example's store empties the history.
   */
  lemma RemovalsAgreeExceptOnOneEntry(h: seq<map<string, string>>)
    ensures |h| > 1 ==> SubstoreUndo.Removed(h) == UndoApp.Removed(h)
    ensures |h| == 1 ==> SubstoreUndo.Removed(h) == [SubstoreUndo.InitialState] && UndoApp.Removed(h) == []
    ensures |h| == 0 ==> SubstoreUndo.Removed(h) == UndoApp.Removed(h)
  {
    assert SubstoreUndo.InitialState == UndoApp.InitialState;
  }
}

=== FILE: js_array.dfy ===
/** The array operations the history stores apply to their entries. */
module JsArray {

  import opened Wrappers

  /**
   * `xs.filter((x, index) => index < bound)`: visits the elements in order and keeps
   * those whose index is below `bound`. The recursion follows the visit: the head has
   * index 0, so the rest is filtered against `bound - 1`.
   */
  function FilterIndexBelow<T>(xs: seq<T>, bound: int): (kept: seq<T>)
    ensures bound <= 0 ==> kept == []
    ensures 0 <= bound <= |xs| ==> kept == xs[..bound]
    ensures |xs| <= bound ==> kept == xs
    decreases |xs|
  {
    if |xs| == 0 then []
    else if 0 < bound then [xs[0]] + FilterIndexBelow(xs[1..], bound - 1)
    else FilterIndexBelow(xs[1..], bound - 1)
  }

  /**
   * `xs.concat(x)` for a value `x` that is not itself an array (the history updaters'
   * `prevState.history.concat(state)`): every earlier element, then `x`.
   */
  function Appended<T>(xs: seq<T>, x: T): (r: seq<T>)
    ensures |r| == |xs| + 1 && r[..|xs|] == xs && r[|xs|] == x
  {
    xs + [x]
  }

  /** The last element of a non-empty array: `xs[xs.length - 1]`. */
  function Last<T>(xs: seq<T>): T
    requires |xs| > 0
  {
    xs[|xs| - 1]
  }

  /** `xs[xs.length - 1]` on any array: `undefined` (here `None`) when it is empty. */
  function LastOrUndefined<T>(xs: seq<T>): (r: Option<T>)
    ensures r.Some? <==> |xs| > 0
    ensures r.Some? ==> r.value == xs[|xs| - 1]
  {
    if |xs| == 0 then None else Some(xs[|xs| - 1])
  }
}

=== FILE: readme_redu_substore.dfy ===
/**
 * The colour store of the readme-redu-substore example. Its code is that of the substore-undo
 * colour store, but the history store it subscribes to (through `createSubscriber`) is not part
 * of this model: what the store sends to `addToHistory` / `removeFromHistory` is returned by
 * its actions, and the entry the history store hands back arrives through `ReceiveEntry`, the
 * callback both actions pass.
 */
module ReadmeReduSubstore {

  import opened Wrappers

  type ColorState = map<string, string>

  /** `ColorListStore.defaultProps.colors` */
  const Colors: seq<string> := ["red", "orange", "yellow", "green", "blue", "indigo", "violet"]

  /** `ColorListStore.initialState`: the first default colour is selected. */
  const InitialState: ColorState := map["selectedColor" := Colors[0]]

  /** A call the store makes on the history store's actions. */
  datatype HistoryCall = AddToHistory(entry: ColorState) | RemoveFromHistory

  /** The `createSubscriber` mapping: exactly the history store's three actions, by name. */
  function SubscriberProps<F>(historyStoreActions: map<string, F>): (props: map<string, Option<F>>)
    ensures props.Keys == {"hasHistory", "addToHistory", "removeFromHistory"}
    ensures forall k :: k in props && k in historyStoreActions ==> props[k] == Some(historyStoreActions[k])
    ensures forall k :: k in props && k !in historyStoreActions ==> props[k] == None
  {
    map k | k in {"hasHistory", "addToHistory", "removeFromHistory"} ::
      if k in historyStoreActions then Some(historyStoreActions[k]) else None
  }

  class ColorListStore {
    var state: ColorState

    constructor ()
      ensures state == InitialState
    {
      state := InitialState;
    }

    /**
     * The action `setStateAndHistory(state = {})`: hand the partial state to `addToHistory`.
     * The store itself changes only when the history store calls back.
     */
    method SetStateAndHistory(partial: Option<ColorState>) returns (call: HistoryCall)
      ensures call == AddToHistory(partial.GetOr(map[]))
    {
      call := AddToHistory(partial.GetOr(map[]));
    }

    /** The action `changeColor(color)`: record `{selectedColor: color}` and nothing else. */
    method ChangeColor(color: string) returns (call: HistoryCall)
      ensures call.AddToHistory? && call.entry.Keys == {"selectedColor"}
      ensures call.entry["selectedColor"] == color
    {
      call := SetStateAndHistory(Some(map["selectedColor" := color]));
    }

    /** The action `undo`: ask the history store to remove its last entry. */
    method Undo() returns (call: HistoryCall)
      ensures call == RemoveFromHistory
    {
      call := RemoveFromHistory;
    }

    /** The callback `(state) => this.setState(state)`; `setState(undefined)` merges nothing. */
    method ReceiveEntry(entry: Option<ColorState>)
      modifies this
      ensures state == old(state) + entry.GetOr(map[])
    {
      match entry {
        case Some(e) => state := state + e;
        case None =>
      }
    }
  }
}

=== FILE: redu.dfy ===
/**
 * The two wrapper factories of redu: `containerComponent` (a component that owns state and
 * binds actions to itself) and `presentationalComponent` (a component that derives props from
 * the nearest container, reached through the child context).
 *
 * A JavaScript object is a `map<string, V>`; `Object.assign({}, a, b, c)` is `a + b + c`.
 * A function bound to a container instance is the value `Bind(action, instance)`.
 */
module Redu {

  import opened Wrappers

  type Object<V> = map<string, V>

  /** An action function after `.bind(container)`. */
  datatype BoundAction<A, V> = Bind(action: A, receiver: Container<A, V>)

  type Actions<A, V> = Object<BoundAction<A, V>>

  /** `containerStateToProps(state, props)` */
  type StateToProps<!V> = (Object<V>, Object<V>) -> Object<V>

  /** `actionsToProps(actions)` */
  type ActionsToProps<!A, !V> = Actions<A, V> -> Object<V>

  /**
   * The merge both `render` methods hand to the wrapped component:
   * `Object.assign(fromState, fromActions, ownProps)`. Every key of the three maps is a
   * prop; an own prop beats an action-derived one, which beats a state-derived one.
   */
  function Assign<V>(fromState: Object<V>, fromActions: Object<V>, ownProps: Object<V>): (props: Object<V>)
    ensures props.Keys == fromState.Keys + fromActions.Keys + ownProps.Keys
    ensures forall k :: k in ownProps ==> props[k] == ownProps[k]
    ensures forall k :: k in fromActions && k !in ownProps ==> props[k] == fromActions[k]
    ensures forall k :: k in fromState && k !in fromActions && k !in ownProps ==> props[k] == fromState[k]
  {
    fromState + fromActions + ownProps
  }

  // ---------------------------------------------------------------- options

  /** The default `containerStateToProps`, `(state, props) => {}`: it derives no prop. */
  function NoStateProps<V>(state: Object<V>, props: Object<V>): (derived: Object<V>)
    ensures derived.Keys == {}
  {
    map[]
  }

  /** The default `actionsToProps`, `(actions) => {}`: it derives no prop. */
  function NoActionProps<A, V>(actions: Actions<A, V>): (derived: Object<V>)
    ensures derived.Keys == {}
  {
    map[]
  }

  /**
   * The `actions` option: the action functions by name, and the order `Object.keys`
   * lists the names in.
   */
  datatype ActionTable<A> = ActionTable(keys: seq<string>, fns: map<string, A>) {
    /** `keys` lists every name of `fns` exactly once. */
    predicate Valid() {
      && (forall i, j :: 0 <= i < j < |keys| ==> keys[i] != keys[j])
      && fns.Keys == set k | k in keys
    }
  }

  /** Options of `presentationalComponent`; `None` is an omitted key. */
  datatype PresentationalOptions<!A, !V> = PresentationalOptions(
    containerStateToProps: Option<StateToProps<V>>,
    actionsToProps: Option<ActionsToProps<A, V>>)

  /** Options of `containerComponent`; `None` is an omitted key. */
  datatype ContainerOptions<!A, !V> = ContainerOptions(
    actions: Option<ActionTable<A>>,
    initialState: Option<Object<V>>,
    containerStateToProps: Option<StateToProps<V>>,
    actionsToProps: Option<ActionsToProps<A, V>>)

  /** The two mappers once the options are merged over the defaults. */
  datatype Mappers<!A, !V> = Mappers(stateToProps: StateToProps<V>, actionsToProps: ActionsToProps<A, V>)

  /**
   * `Object.assign({}, presentationalDefaults, options)`: a supplied mapper replaces
   * its default, and an omitted one contributes no props at all.
   */
  function ResolveMappers<A, V>(options: PresentationalOptions<A, V>): (m: Mappers<A, V>)
    ensures options.containerStateToProps.Some? ==> m.stateToProps == options.containerStateToProps.value
    ensures options.actionsToProps.Some? ==> m.actionsToProps == options.actionsToProps.value
    ensures options.containerStateToProps.None? ==> m.stateToProps == NoStateProps<V>
    ensures options.actionsToProps.None? ==> m.actionsToProps == NoActionProps<A, V>
  {
    Mappers(options.containerStateToProps.GetOr(NoStateProps<V>), options.actionsToProps.GetOr(NoActionProps<A, V>))
  }

  // ---------------------------------------------------------------- reserved action names

  /** Names an action may not have, since they would overwrite the container's own members. */
  predicate IsReserved(name: string) {
    name == "render" || name == "constructor" || name == "getChildContext"
  }

  /** The message of the error the constructor throws for a reserved action name. */
  function ReservedMessage(name: string): string {
    "Please rename the \"" + name + "\" action, as it is a reserved word."
  }

  /**
   * The message quotes the name between a fixed 19-character opening and a fixed
   * 35-character closing, so it always tells which action to rename.
   */
  lemma ReservedMessageParts(name: string)
    ensures var message := ReservedMessage(name);
            && |message| == 19 + |name| + 35
            && message[..19] == "Please rename the \""
            && message[19..19 + |name|] == name
            && message[19 + |name|..] == "\" action, as it is a reserved word."
  {
  }

  /** Different action names give different messages. */
  lemma {:induction false} ReservedMessageNamesAction(a: string, b: string)
    ensures ReservedMessage(a) == ReservedMessage(b) <==> a == b
  {
    if ReservedMessage(a) == ReservedMessage(b) {
      ReservedMessageParts(a);
      ReservedMessageParts(b);
      var m := ReservedMessage(a);
      assert |a| == |m| - 54 == |b|;
      assert a == m[19..19 + |a|] == b;
    }
  }

  /** The position of the first reserved name in `keys`, if any. */
  function FirstReserved(keys: seq<string>): (r: Option<nat>)
    ensures r.Some? ==> r.value < |keys| && IsReserved(keys[r.value])
    ensures r.Some? ==> forall j :: 0 <= j < r.value ==> !IsReserved(keys[j])
    ensures r.None? <==> forall j :: 0 <= j < |keys| ==> !IsReserved(keys[j])
  {
    if keys == [] then None
    else if IsReserved(keys[0]) then Some(0)
    else match FirstReserved(keys[1..])
      case None => None
      case Some(i) => Some(i + 1)
  }

  /**
   * The bindings the constructor's loop has written after visiting `names` in order:
   * `m[name] := fns[name].bind(receiver)` for each.
   */
  function BindAll<A, V>(m: Actions<A, V>, names: seq<string>, fns: map<string, A>, receiver: Container<A, V>): (r: Actions<A, V>)
    requires forall n :: n in names ==> n in fns
    ensures r.Keys == m.Keys + (set n | n in names)
    ensures forall n :: n in names ==> r[n] == Bind(fns[n], receiver)
    ensures forall k :: k in m && k !in names ==> r[k] == m[k]
    decreases |names|
  {
    if names == [] then m
    else
      var last := names[|names| - 1];
      BindAll(m, names[..|names| - 1], fns, receiver)[last := Bind(fns[last], receiver)]
  }

  // ---------------------------------------------------------------- containerComponent

  /**
   * The child context a container hands to its descendants. Its `actions` is the shared
   * `_actions` object itself, not a copy: the context refers to the class that owns that
   * object, so it always reads the table's current bindings.
   */
  datatype Context<A, V> = Context(actionsOwner: ContainerClass<A, V>, containerComponent: Container<A, V>) {
    /** `context.actions`: the current contents of the shared `_actions`. */
    function Actions(): Actions<A, V>
      reads actionsOwner
    {
      actionsOwner.boundActions
    }
  }

  /**
   * The class `containerComponent(Component, options)` returns: the merged options it
   * closes over, and the `_actions` object all of its instances share.
   */
  class ContainerClass<A, V> {
    const actions: ActionTable<A>
    const initialState: Object<V>
    const mappers: Mappers<A, V>
    var boundActions: Actions<A, V>

    /** `containerComponent(Component, options)`: merge the options over the defaults. */
    constructor (options: ContainerOptions<A, V>)
      requires options.actions.Some? ==> options.actions.value.Valid()
      ensures actions == options.actions.GetOr(ActionTable([], map[]))
      ensures initialState == options.initialState.GetOr(map[])
      ensures mappers == ResolveMappers(PresentationalOptions(options.containerStateToProps, options.actionsToProps))
      ensures actions.Valid()
      ensures boundActions == map[]
    {
      actions := options.actions.GetOr(ActionTable([], map[]));
      initialState := options.initialState.GetOr(map[]);
      mappers := ResolveMappers(PresentationalOptions(options.containerStateToProps, options.actionsToProps));
      boundActions := map[];
    }

    /**
     * `new ContainerComponent(props)`. The constructor walks the action names in key
     * order, binding each one into the shared `_actions` and onto the instance, and throws
     * at the first reserved name; the names before it stay bound to the abandoned instance.
     */
    method New(props: Option<Object<V>>) returns (instance: Container<A, V>, error: Option<string>)
      requires actions.Valid()
      modifies this
      ensures fresh(instance)
      ensures instance.cls == this && instance.props == props.GetOr(map[])
      ensures instance.state == initialState
      ensures var n := BoundCount(actions.keys);
        && boundActions == BindAll(old(boundActions), actions.keys[..n], actions.fns, instance)
        && instance.members == BindAll(map[], actions.keys[..n], actions.fns, instance)
      ensures FirstReserved(actions.keys).None? ==> error == None
      ensures FirstReserved(actions.keys).Some? ==>
        error == Some(ReservedMessage(actions.keys[FirstReserved(actions.keys).value]))
    {
      instance := new Container(this, props.GetOr(map[]));
      var shared, members;
      shared, members, error := BindActions(actions.keys, actions.fns, boundActions, instance);
      boundActions, instance.members := shared, members;
    }
  }

  /**
   * The constructor's loop over the action names in key order: bind each name into the
   * shared `_actions` (starting from `previous`) and onto the instance, and stop with the
   * error message at the first reserved name.
   */
  method BindActions<A, V>(keys: seq<string>, fns: map<string, A>, previous: Actions<A, V>, instance: Container<A, V>)
    returns (shared: Actions<A, V>, members: Actions<A, V>, error: Option<string>)
    requires forall n :: n in keys ==> n in fns
    ensures var n := BoundCount(keys);
      && shared == BindAll(previous, keys[..n], fns, instance)
      && members == BindAll(map[], keys[..n], fns, instance)
    ensures FirstReserved(keys).None? ==> error == None
    ensures FirstReserved(keys).Some? ==> error == Some(ReservedMessage(keys[FirstReserved(keys).value]))
  {
    shared, members, error := previous, map[], None;
    for i := 0 to |keys|
      invariant forall j :: 0 <= j < i ==> !IsReserved(keys[j])
      invariant shared == BindAll(previous, keys[..i], fns, instance)
      invariant members == BindAll(map[], keys[..i], fns, instance)
    {
      var name := keys[i];
      if IsReserved(name) {
        FirstReservedAt(keys, i);
        error := Some(ReservedMessage(name));
        return;
      }
      var bound := Bind(fns[name], instance);
      BindAllStep(previous, keys, i, fns, instance);
      BindAllStep(map[], keys, i, fns, instance);
      shared := shared[name := bound];
      members := members[name := bound];
    }
    assert keys[..|keys|] == keys;
  }

  /**
   * After a construction that did not throw, every action is a key of `_actions` and a
   * member of the instance, and both hold the same function bound to the instance.
   */
  lemma BoundEverywhere<A, V>(previous: Actions<A, V>, table: ActionTable<A>, instance: Container<A, V>)
    requires table.Valid()
    ensures var shared := BindAll(previous, table.keys, table.fns, instance);
            var members := BindAll(map[], table.keys, table.fns, instance);
            forall k :: k in table.fns ==>
              && k in shared && k in members
              && shared[k] == members[k] == Bind(table.fns[k], instance)
  {
  }

  /** The loop's step: binding one more name extends the bindings by that name. */
  lemma BindAllStep<A, V>(m: Actions<A, V>, keys: seq<string>, i: nat, fns: map<string, A>, receiver: Container<A, V>)
    requires i < |keys| && forall n :: n in keys ==> n in fns
    ensures BindAll(m, keys[..i + 1], fns, receiver) == BindAll(m, keys[..i], fns, receiver)[keys[i] := Bind(fns[keys[i]], receiver)]
  {
    assert keys[..i + 1][..i] == keys[..i];
  }

  /** How many names the constructor's loop binds: all of them, or those before the first reserved one. */
  function BoundCount(keys: seq<string>): (n: nat)
    ensures n <= |keys|
    ensures FirstReserved(keys).None? ==> n == |keys|
    ensures FirstReserved(keys).Some? ==> n == FirstReserved(keys).value
  {
    match FirstReserved(keys)
    case None => |keys|
    case Some(i) => i
  }

  /** The first reserved name is the one the loop stops at. */
  lemma FirstReservedAt(keys: seq<string>, i: nat)
    requires i < |keys| && IsReserved(keys[i])
    requires forall j :: 0 <= j < i ==> !IsReserved(keys[j])
    ensures FirstReserved(keys) == Some(i)
  {
  }

  /** An instance of the class `containerComponent` returns. */
  class Container<A, V> {
    const cls: ContainerClass<A, V>
    const props: Object<V>
    var state: Object<V>
    /** The actions that became members of the instance (`this[action]`). */
    var members: Actions<A, V>

    /** The part of construction before the action loop: `this.state = Object.assign({}, initialState)`. */
    constructor (cls: ContainerClass<A, V>, props: Object<V>)
      ensures this.cls == cls && this.props == props
      ensures state == cls.initialState && members == map[]
    {
      this.cls := cls;
      this.props := props;
      state := cls.initialState;
      members := map[];
    }

    /** The props `render` gives the wrapped component. */
    function Render(): (r: Object<V>)
      reads this, cls
      ensures r == Assign(cls.mappers.stateToProps(state, props), cls.mappers.actionsToProps(cls.boundActions), props)
      ensures forall k :: k in props ==> k in r && r[k] == props[k]
    {
      Assign(cls.mappers.stateToProps(state, props), cls.mappers.actionsToProps(cls.boundActions), props)
    }

    /** `getChildContext`: the shared `_actions` object and the instance itself. */
    function GetChildContext(): (c: Context<A, V>)
      reads cls
      ensures c.actionsOwner == cls && c.Actions() == cls.boundActions && c.containerComponent == this
    {
      Context(cls, this)
    }
  }

  // ---------------------------------------------------------------- presentationalComponent

  /** The class `presentationalComponent(Component, options)` returns. */
  datatype Presentational<!A, !V> = Presentational(mappers: Mappers<A, V>) {

    /**
     * `render`: read the container and its actions out of the context and merge the
     * derived props under the component's own props.
     */
    function Render(context: Context<A, V>, ownProps: Object<V>): (r: Object<V>)
      reads context.containerComponent, context.actionsOwner
      ensures forall k :: k in ownProps ==> k in r && r[k] == ownProps[k]
      ensures r.Keys == mappers.stateToProps(context.containerComponent.state, context.containerComponent.props).Keys
                        + mappers.actionsToProps(context.Actions()).Keys + ownProps.Keys
    {
      var container := context.containerComponent;
      Assign(mappers.stateToProps(container.state, container.props), mappers.actionsToProps(context.Actions()), ownProps)
    }
  }

  /** `presentationalComponent(Component, options)` */
  function PresentationalComponent<A, V>(options: PresentationalOptions<A, V>): (p: Presentational<A, V>)
    ensures p.mappers == ResolveMappers(options)
  {
    Presentational(ResolveMappers(options))
  }

  // ---------------------------------------------------------------- properties

  /** With every option omitted, a container passes exactly its own props down. */
  lemma ContainerDefaultsPassOwnProps<A, V>(c: Container<A, V>, options: ContainerOptions<A, V>)
    requires options.containerStateToProps.None? && options.actionsToProps.None?
    requires c.cls.mappers == ResolveMappers(PresentationalOptions(options.containerStateToProps, options.actionsToProps))
    ensures c.Render() == c.props
  {
    var m := c.cls.mappers;
    assert m.stateToProps(c.state, c.props) == map[];
    assert m.actionsToProps(c.cls.boundActions) == map[];
  }

  /** With every option omitted, a presentational component's props are exactly its own. */
  lemma PresentationalDefaultsPassOwnProps<A, V>(context: Context<A, V>, ownProps: Object<V>)
    ensures PresentationalComponent(PresentationalOptions(None, None)).Render(context, ownProps) == ownProps
  {
    var p := PresentationalComponent<A, V>(PresentationalOptions(None, None));
    var container := context.containerComponent;
    assert p.mappers.stateToProps(container.state, container.props) == map[];
    assert p.mappers.actionsToProps(context.Actions()) == map[];
  }

  /**
   * A presentational component under a container sees that container's current state and
   * props, and the actions as bound in the shared `_actions`.
   */
  lemma PresentationalSeesContainer<A, V>(p: Presentational<A, V>, c: Container<A, V>, ownProps: Object<V>)
    ensures p.Render(c.GetChildContext(), ownProps)
            == Assign(p.mappers.stateToProps(c.state, c.props), p.mappers.actionsToProps(c.cls.boundActions), ownProps)
  {
  }

  /**
   * Building a second instance from the same class rebinds every action in the shared
   * `_actions` to the newest instance. A context the first instance handed out before
   * that construction shares the object, so it now hands out actions bound to the second;
   * the first instance's own members are untouched.
   */
  method SecondInstanceTakesOverActions<A, V>(cls: ContainerClass<A, V>, props: Object<V>)
    returns (first: Container<A, V>, context: Context<A, V>, second: Container<A, V>)
    requires cls.actions.Valid() && FirstReserved(cls.actions.keys) == None
    modifies cls
    ensures first != second && context.containerComponent == first
    ensures forall k :: k in cls.actions.fns ==>
      && k in context.Actions() && k in first.members
      && context.Actions()[k] == Bind(cls.actions.fns[k], second)
      && first.members[k] == Bind(cls.actions.fns[k], first)
  {
    var e1, e2;
    first, e1 := cls.New(Some(props));
    context := first.GetChildContext();
    second, e2 := cls.New(Some(props));
  }
}

=== FILE: substore_page_store.dfy ===
/**
 * The top store of the substore example: the same machine as the github-users store, with
 * the results under `listItems` and the default `entity` prop `'user'`.
 *
 * `setState` merges the named fields. The debounce timer and the request are outside the
 * model: `Search` returns the query it requests a debounced search for, `DebouncedSearch`
 * the query it sends, and `ReceiveResults` is the arrival of the response.
 */
module SubstorePageStore {

  import opened Wrappers

  datatype PageState<User, Item> = PageState(
    searchQuery: string,
    userToDisplay: Option<User>,
    listItems: Option<seq<Item>>)

  /** `PageStore.defaultProps`, without the `utils` request functions. */
  datatype PageProps<Utils> = PageProps(utils: Utils, entity: string)

  /** The default `entity` prop. */
  const DefaultEntity: string := "user"

  /** `PageStore.defaultProps` for the given request functions. */
  function DefaultProps<Utils>(utils: Utils): (p: PageProps<Utils>)
    ensures p.entity == "user" && p.utils == utils
  {
    PageProps(utils, DefaultEntity)
  }

  /** `PageStore.initialState`: empty query, no user, no results. */
  function InitialState<User, Item>(): (s: PageState<User, Item>)
    ensures s.searchQuery == "" && s.userToDisplay.None? && s.listItems.None?
  {
    PageState("", None, None)
  }

  class PageStore<User, Item> {
    var searchQuery: string
    var userToDisplay: Option<User>
    var listItems: Option<seq<Item>>

    function State(): PageState<User, Item>
      reads this
    {
      PageState(searchQuery, userToDisplay, listItems)
    }

    constructor ()
      ensures State() == InitialState()
    {
      searchQuery, userToDisplay, listItems := "", None, None;
    }

    /** The action `displayUser(userToDisplay)`. */
    method DisplayUser(user: User)
      modifies this
      ensures State() == old(State()).(userToDisplay := Some(user))
    {
      userToDisplay := Some(user);
    }

    /** The action `reset`: `setState(PageStore.initialState)`. */
    method Reset()
      modifies this
      ensures State() == InitialState()
    {
      var initial := InitialState<User, Item>();
      searchQuery, userToDisplay, listItems := initial.searchQuery, initial.userToDisplay, initial.listItems;
    }

    /** The action `search(searchQuery)`: set the query, then request `debouncedSearch(searchQuery)`. */
    method Search(query: string) returns (requested: string)
      modifies this
      ensures State() == old(State()).(searchQuery := query)
      ensures requested == query
    {
      searchQuery := query;
      requested := query;
    }

    /** The debounced action: set the query, mark the results as being fetched, send the query. */
    method DebouncedSearch(query: string) returns (sent: string)
      modifies this
      ensures State() == old(State()).(searchQuery := query, listItems := None)
      ensures sent == query
    {
      searchQuery, listItems := query, None;
      sent := query;
    }

    /** The response handler: `setState({listItems: results.items || []})`. */
    method ReceiveResults(items: Option<seq<Item>>)
      modifies this
      ensures State() == old(State()).(listItems := Some(items.GetOr([])))
    {
      listItems := Some(items.GetOr([]));
    }
  }
}

=== FILE: substore_status.dfy ===
/**
 * The status line of the substore example, used under both the page store (`entity` is
 * `'user'`) and the user sub-store (`entity` is `'repo'`).
 */
module SubstoreStatus {

  import opened Wrappers
  import Decimal
  import PageStore = SubstorePageStore
  import UserStore = UserSubStore

  const SearchingMessage: string := "Searching..."

  /** The plural suffix: none for exactly one item, `s` otherwise (zero included). */
  function PluralSuffix(count: nat): (suffix: string)
    ensures suffix == "" <==> count == 1
    ensures suffix != "" ==> suffix == "s"
  {
    if count == 1 then "" else "s"
  }

  /**
   * `Found ${n} ${entity}${suffix}.`: the count's digits after a fixed opening, then a space,
   * the entity, its plural suffix and a full stop.
   */
  function FoundMessage(count: nat, entity: string): (message: string)
    ensures var digits := Decimal.Show(count);
            && |message| == 6 + |digits| + 1 + |entity| + |PluralSuffix(count)| + 1
            && message[..6] == "Found "
            && message[6..6 + |digits|] == digits
            && message[6 + |digits|] == ' '
            && message[7 + |digits|..7 + |digits| + |entity|] == entity
            && message[7 + |digits| + |entity|..|message| - 1] == PluralSuffix(count)
            && message[|message| - 1] == '.'
  {
    "Found " + Decimal.Show(count) + " " + entity + PluralSuffix(count) + "."
  }

  /** `Please enter a GitHub ${entity}.`: the entity between a fixed opening and a full stop. */
  function PromptMessage(entity: string): (message: string)
    ensures |message| == 22 + |entity| + 1
    ensures message[..22] == "Please enter a GitHub "
    ensures message[22..|message| - 1] == entity && message[|message| - 1] == '.'
  {
    "Please enter a GitHub " + entity + "."
  }

  /** The three messages never read as one another, whatever the counts and entities. */
  lemma MessagesAreDistinct(count: nat, entity: string, other: string)
    ensures FoundMessage(count, entity) != PromptMessage(other)
    ensures FoundMessage(count, entity) != SearchingMessage
    ensures PromptMessage(other) != SearchingMessage
  {
    assert FoundMessage(count, entity)[0] == 'F';
    assert PromptMessage(other)[0] == 'P';
    assert SearchingMessage[0] == 'S';
  }

  /** The found-message tells the count: different counts read differently for one entity. */
  lemma FoundMessageDeterminesCount(m: nat, n: nat, entity: string)
    ensures FoundMessage(m, entity) == FoundMessage(n, entity) ==> m == n
  {
    if FoundMessage(m, entity) == FoundMessage(n, entity) {
      var a := FoundMessage(m, entity);
      var dm, dn := Decimal.Show(m), Decimal.Show(n);
      assert |PluralSuffix(m)| <= 1 && |PluralSuffix(n)| <= 1;
      assert dm == a[6..6 + |dm|] == dn;
      Decimal.ShowInjective(m, n);
    }
  }

  /**
   * `makeStatus()`: a non-empty list is counted whatever the query; otherwise an empty query
   * prompts, a running search says so, and a non-empty query with no results falls through
   * and shows nothing (`undefined`, here `None`).
   */
  function MakeStatus<Item>(listItems: Option<seq<Item>>, searchQuery: string, entity: string): (message: Option<string>)
    ensures listItems.Some? && |listItems.value| > 0 ==> message == Some(FoundMessage(|listItems.value|, entity))
    ensures (listItems.None? || listItems.value == []) && searchQuery == "" ==> message == Some(PromptMessage(entity))
    ensures searchQuery != "" && listItems.None? ==> message == Some(SearchingMessage)
    ensures message.None? <==> searchQuery != "" && listItems == Some([])
  {
    if listItems.Some? && |listItems.value| > 0 then
      Some(FoundMessage(|listItems.value|, entity))
    else if searchQuery == "" then
      Some(PromptMessage(entity))
    else if listItems.None? then
      Some(SearchingMessage)
    else
      None
  }

  /** The reset button's `display` style: shown for any results, even an empty list. */
  function ResetButtonDisplay<Item>(listItems: Option<seq<Item>>): (display: string)
    ensures display == "inline-block" <==> listItems.Some?
    ensures display == "none" <==> listItems.None?
  {
    if listItems.Some? then "inline-block" else "none"
  }

  /** The props the subscription derives from the nearest store. */
  datatype StatusProps<Item, F> = StatusProps(searchQuery: string, listItems: Option<seq<Item>>, entity: string, reset: Option<F>)

  function DerivedProps<Item, F>(searchQuery: string, listItems: Option<seq<Item>>, entity: string, actions: map<string, F>)
    : (props: StatusProps<Item, F>)
    ensures props.searchQuery == searchQuery && props.listItems == listItems && props.entity == entity
    ensures "reset" in actions ==> props.reset == Some(actions["reset"])
    ensures "reset" !in actions ==> props.reset == None
  {
    StatusProps(searchQuery, listItems, entity, if "reset" in actions then Some(actions["reset"]) else None)
  }

  /** Under the page store, a single result reads `Found 1 user.` */
  lemma OneUserFound<User, Item>(state: PageStore.PageState<User, Item>, item: Item)
    requires state.listItems == Some([item])
    ensures MakeStatus(state.listItems, state.searchQuery, PageStore.DefaultEntity) == Some("Found 1 user.")
  {
    assert Decimal.Show(1) == "1";
    assert PageStore.DefaultEntity == "user";
    assert FoundMessage(1, "user") == "Found " + "1" + " " + "user" + "" + ".";
    assert FoundMessage(1, "user") == "Found 1 user.";
    assert MakeStatus(state.listItems, state.searchQuery, "user") == Some(FoundMessage(1, "user"));
  }

  /** Under the user sub-store, three results read `Found 3 repos.` */
  lemma ThreeReposFound<Item>(state: UserStore.UserState<Item>, a: Item, b: Item, c: Item)
    requires state.listItems == Some([a, b, c])
    ensures MakeStatus(state.listItems, state.searchQuery, UserStore.DefaultEntity) == Some("Found 3 repos.")
  {
    assert Decimal.Show(3) == "3";
    assert FoundMessage(3, "repo") == "Found " + "3" + " " + "repo" + "s" + ".";
    assert FoundMessage(3, "repo") == "Found 3 repos.";
    assert MakeStatus(state.listItems, state.searchQuery, "repo") == Some(FoundMessage(3, "repo"));
  }

  /**
   * The user sub-store's `reset` only clears the query: results still on screen keep being
   * counted until its debounced search marks them as being fetched, after which the line
   * prompts for a repository.
   */
  lemma UserResetKeepsCountUntilFetch<Item>(state: UserStore.UserState<Item>)
    requires state.listItems.Some? && |state.listItems.value| > 0
    ensures var afterReset := state.(searchQuery := "");
            MakeStatus(afterReset.listItems, afterReset.searchQuery, UserStore.DefaultEntity)
              == Some(FoundMessage(|state.listItems.value|, "repo"))
    ensures var fetching := state.(searchQuery := "", listItems := None);
            MakeStatus(fetching.listItems, fetching.searchQuery, UserStore.DefaultEntity)
              == Some("Please enter a GitHub repo.")
  {
    assert PromptMessage("repo") == "Please enter a GitHub " + "repo" + ".";
    assert PromptMessage("repo") == "Please enter a GitHub repo.";
  }
}

=== FILE: substore_undo.dfy ===
/**
 * The substore-undo example: a colour store (`ColorListStore`) whose every change is recorded
 * by a history store above it (`HistoryStore`), which keeps a never-empty stack of the
 * recorded partial states and hands entries back through callbacks.
 *
 * A colour state, and every history entry, is a JavaScript object of strings.
 * `setState` is a synchronous shallow merge (`state + partial`) followed by its callback.
 */
module SubstoreUndo {

  import opened Wrappers
  import opened JsArray

  type ColorState = map<string, string>

  /** `ColorListStore.defaultProps.colors` */
  const Colors: seq<string> := ["red", "orange", "yellow", "green", "blue", "indigo", "violet"]

  /** `ColorListStore.initialState`: the first default colour is selected. */
  const InitialState: ColorState := map["selectedColor" := Colors[0]]

  /** Every key of `entry` has the same value in `state`: merging `entry` changes nothing. */
  predicate Shows(state: ColorState, entry: ColorState) {
    forall k :: k in entry ==> k in state && state[k] == entry[k]
  }

  // ---------------------------------------------------------------- HistoryStore

  /**
   * The updater `removeFromHistory` passes to `setState`: keep every entry but the last,
   * and fall back to `[ColorListStore.initialState]` when nothing would be left.
   */
  function Removed(history: seq<ColorState>): (r: seq<ColorState>)
    ensures |r| > 0
    ensures |history| > 1 ==> r == history[..|history| - 1]
    ensures |history| <= 1 ==> r == [InitialState]
  {
    var kept := FilterIndexBelow(history, |history| - 1);
    if |kept| == 0 then kept + [InitialState] else kept
  }

  /** Undoing an addition gives back the history it was made to. */
  lemma RemovedUndoesAppended(history: seq<ColorState>, entry: ColorState)
    requires |history| > 0
    ensures Removed(Appended(history, entry)) == history
  {
  }

  /** The store above the colour store, holding `state.history`. */
  class HistoryStore {
    var history: seq<ColorState>

    /** `HistoryStore.initialState`: the colour store's initial state is the first entry. */
    constructor ()
      ensures history == [InitialState]
    {
      history := [InitialState];
    }

    /** The history is never empty. */
    predicate Valid()
      reads this
    {
      |history| > 0
    }

    /** The action `hasHistory`: an undo would go back to an earlier recorded entry. */
    predicate HasHistory()
      reads this
      ensures |history| > 0 ==> (HasHistory() <==> |Removed(history)| < |history|)
    {
      |history| > 1
    }

    /**
     * The action `addToHistory(state, getState)`: append `entry`, then hand the new last
     * entry (`entry` itself) to the callback, returned here as `delivered`.
     */
    method AddToHistory(entry: ColorState) returns (delivered: ColorState)
      modifies this
      ensures history == Appended(old(history), entry)
      ensures delivered == entry
      ensures Valid() && (old(Valid()) ==> HasHistory())
    {
      history := Appended(history, entry);
      delivered := history[|history| - 1];
    }

    /**
     * The action `removeFromHistory(getState)`: drop the last entry (restoring the initial
     * entry if none would be left), then hand the new last entry to the callback.
     */
    method RemoveFromHistory() returns (delivered: ColorState)
      modifies this
      ensures history == Removed(old(history))
      ensures Valid() && delivered == Last(history)
    {
      history := Removed(history);
      delivered := Last(history);
    }
  }

  // ---------------------------------------------------------------- ColorListSubStore

  /** Names of the history store's actions that the subscriber passes on. */
  const HistoryActionNames: set<string> := {"hasHistory", "addToHistory", "removeFromHistory"}

  /**
   * The subscriber mapping: the colour store's props are the history store's three actions,
   * under the same names; an action the history store lacks is `undefined`.
   */
  function SubscriberProps<F>(historyStoreActions: map<string, F>): (props: map<string, Option<F>>)
    ensures props.Keys == HistoryActionNames
    ensures forall k :: k in props && k in historyStoreActions ==> props[k] == Some(historyStoreActions[k])
    ensures forall k :: k in props && k !in historyStoreActions ==> props[k] == None
  {
    map k | k in HistoryActionNames :: if k in historyStoreActions then Some(historyStoreActions[k]) else None
  }

  /** The store around the colour list; its history actions act on `history`. */
  class ColorListStore {
    const history: HistoryStore
    var state: ColorState

    /**
     * A new colour store under `history`, starting from `ColorListStore.initialState`; under a
     * history store that still holds its initial history the store starts valid.
     */
    constructor (history: HistoryStore)
      ensures this.history == history && state == InitialState
      ensures history.history == [InitialState] ==> Valid()
    {
      this.history := history;
      state := InitialState;
    }

    /** The store shows what its history last recorded or handed back. */
    predicate Valid()
      reads this, history
    {
      history.Valid() && Shows(state, Last(history.history))
    }

    /**
     * The action `setStateAndHistory(state = {})`: record the partial state in the history,
     * then merge the entry the history hands back.
     */
    method SetStateAndHistory(partial: Option<ColorState>)
      requires Valid()
      modifies this, history
      ensures history.history == Appended(old(history.history), partial.GetOr(map[]))
      ensures state == old(state) + partial.GetOr(map[])
      ensures Valid() && history.HasHistory()
    {
      var delivered := history.AddToHistory(partial.GetOr(map[]));
      state := state + delivered;
    }

    /** The action `changeColor(color)`: record and apply `{selectedColor: color}` only. */
    method ChangeColor(color: string)
      requires Valid()
      modifies this, history
      ensures history.history == Appended(old(history.history), map["selectedColor" := color])
      ensures state == old(state)["selectedColor" := color]
      ensures Valid() && history.HasHistory()
    {
      SetStateAndHistory(Some(map["selectedColor" := color]));
    }

    /** The action `undo`: drop the last entry and merge the one the history hands back. */
    method Undo()
      modifies this, history
      ensures history.history == Removed(old(history.history))
      ensures state == old(state) + Last(history.history)
      ensures Valid()
    {
      var delivered := history.RemoveFromHistory();
      state := state + delivered;
    }
  }

  /**
   * `changeColor` followed by `undo` restores both the history and the selected colour,
   * when the entry before the change recorded a colour (as every entry `changeColor`
   * and the initial state do).
   */
  lemma UndoRestoresColor(h: seq<ColorState>, state: ColorState, color: string)
    requires |h| > 0 && Shows(state, Last(h)) && "selectedColor" in Last(h)
    ensures var h' := Removed(Appended(h, map["selectedColor" := color]));
            var state' := state["selectedColor" := color] + Last(h');
            h' == h && state'["selectedColor"] == state["selectedColor"]
  {
    RemovedUndoesAppended(h, map["selectedColor" := color]);
  }

  /**
   * When the entry before the change recorded nothing (`setStateAndHistory()` records `{}`),
   * `changeColor` followed by `undo` restores the history but keeps the new colour.
   */
  lemma UndoAfterEmptyEntryKeepsColor(h: seq<ColorState>, state: ColorState, color: string)
    requires |h| > 0 && Last(h) == map[]
    ensures var h' := Removed(Appended(h, map["selectedColor" := color]));
            var state' := state["selectedColor" := color] + Last(h');
            h' == h && state'["selectedColor"] == color
  {
    RemovedUndoesAppended(h, map["selectedColor" := color]);
  }

  /**
   * `undo` only restores the keys of the entry it goes back to: a key recorded by the
   * removed entry alone keeps its value, so undoing a partial state that set a key the
   * earlier entries never set does not take that key back.
   */
  lemma UndoKeepsKeysTheEarlierEntryLacks(h: seq<ColorState>, state: ColorState, partial: ColorState, k: string)
    requires |h| > 0 && k in partial && k !in Last(h)
    ensures var h' := Removed(Appended(h, partial));
            var state' := state + partial + Last(h');
            k in state' && state'[k] == partial[k]
  {
    RemovedUndoesAppended(h, partial);
  }
}

=== FILE: undo_app.dfy ===
/**
 * The undo example: a colour store under a history store whose `removeFromHistory` may empty
 * the history; only a further removal restores `historyInitialState`.
 *
 * Colour states and history entries are JavaScript objects of strings. `setState` is a
 * synchronous shallow merge followed by its callback; `setState(undefined)` changes nothing.
 */
module UndoApp {

  import opened Wrappers
  import opened JsArray

  type ColorState = map<string, string>

  /** `props.colors` */
  const Colors: seq<string> := ["red", "orange", "yellow", "green", "blue", "indigo", "violet"]

  /** `initialState`: the first colour is selected. */
  const InitialState: ColorState := map["selectedColor" := Colors[0]]

  /** `historyInitialState.history` */
  const HistoryInitialState: seq<ColorState> := [InitialState]

  /** Every key of `entry` has the same value in `state`. */
  predicate Shows(state: ColorState, entry: ColorState) {
    forall k :: k in entry ==> k in state && state[k] == entry[k]
  }

  /**
   * The updater of `removeFromHistory`: a non-empty history loses its last entry (a
   * one-entry history becomes empty); an empty one becomes `historyInitialState`.
   */
  function Removed(history: seq<ColorState>): (r: seq<ColorState>)
    ensures |history| > 0 ==> r == history[..|history| - 1]
    ensures |history| == 0 ==> r == HistoryInitialState
    ensures |r| == 0 <==> |history| == 1
  {
    if |history| > 0 then FilterIndexBelow(history, |history| - 1) else HistoryInitialState
  }

  /**
   * The `hasHistory` prop the sub-store mapping derives: on a non-empty history, true exactly
   * when an undo would leave an entry to show.
   */
  function HasHistory(history: seq<ColorState>): (b: bool)
    ensures |history| > 0 ==> (b <==> |Removed(history)| > 0)
    ensures |history| == 0 ==> !b
  {
    |history| > 1
  }

  /** Undoing an addition gives back the history it was made to, empty or not. */
  lemma RemovedUndoesAppended(history: seq<ColorState>, entry: ColorState)
    ensures Removed(Appended(history, entry)) == history
  {
  }

  /**
   * From the initial history, two removals are needed to come back to it: the first
   * empties the history and the callback gets `undefined`.
   */
  lemma TwoRemovalsFromInitial()
    ensures Removed(HistoryInitialState) == []
    ensures LastOrUndefined(Removed(HistoryInitialState)) == None
    ensures Removed(Removed(HistoryInitialState)) == HistoryInitialState
  {
  }

  /** `HistoryStoreComponent`, holding `state.history`. */
  class HistoryStore {
    var history: seq<ColorState>

    constructor ()
      ensures history == HistoryInitialState
    {
      history := HistoryInitialState;
    }

    /** The action `addToHistory(state, callback)`; `changeColor` passes no callback. */
    method AddToHistory(entry: ColorState)
      modifies this
      ensures history == Appended(old(history), entry)
      ensures HasHistory(history) <==> |old(history)| > 0
    {
      history := Appended(history, entry);
    }

    /**
     * The action `removeFromHistory(getState)`: apply the updater, then hand the callback
     * the last entry, `undefined` (`None`) when the history is now empty.
     */
    method RemoveFromHistory() returns (delivered: Option<ColorState>)
      modifies this
      ensures history == Removed(old(history))
      ensures delivered == LastOrUndefined(history)
    {
      history := Removed(history);
      delivered := LastOrUndefined(history);
    }
  }

  /** The colour store (`StoreComponent`); its history props act on `historyStore`. */
  class ColorStore {
    const historyStore: HistoryStore
    var state: ColorState

    /** Under a history store that still holds `historyInitialState`, the store starts valid. */
    constructor (historyStore: HistoryStore)
      ensures this.historyStore == historyStore && state == InitialState
      ensures historyStore.history == HistoryInitialState ==> Valid()
    {
      this.historyStore := historyStore;
      state := InitialState;
    }

    /** When there is a history, the store shows its last entry. */
    predicate Valid()
      reads this, historyStore
    {
      |historyStore.history| > 0 ==> Shows(state, Last(historyStore.history))
    }

    /**
     * The action `changeColor(color)`: set `selectedColor`, then record the whole new state.
     */
    method ChangeColor(color: string)
      modifies this, historyStore
      ensures state == old(state)["selectedColor" := color]
      ensures historyStore.history == Appended(old(historyStore.history), state)
      ensures Valid()
    {
      state := state + map["selectedColor" := color];
      historyStore.AddToHistory(state);
    }

    /**
     * The action `undo`: remove the last history entry and merge the entry handed back;
     * when the history became empty, nothing is merged.
     */
    method Undo()
      modifies this, historyStore
      ensures historyStore.history == Removed(old(historyStore.history))
      ensures state == old(state) + LastOrUndefined(historyStore.history).GetOr(map[])
      ensures Valid()
    {
      var delivered := historyStore.RemoveFromHistory();
      match delivered {
        case Some(entry) => state := state + entry;
        case None =>
      }
    }
  }

  /**
   * `changeColor` followed by `undo` restores the history and, when the store showed its
   * last entry and that entry recorded a colour, the selected colour.
   */
  lemma UndoRestoresColor(h: seq<ColorState>, state: ColorState, color: string)
    requires |h| > 0 && Shows(state, Last(h)) && "selectedColor" in Last(h)
    ensures var changed := state["selectedColor" := color];
            var h' := Removed(Appended(h, changed));
            var state' := changed + LastOrUndefined(h').GetOr(map[]);
            h' == h && state'["selectedColor"] == state["selectedColor"]
  {
    RemovedUndoesAppended(h, state["selectedColor" := color]);
  }

  /**
   * Once undo has emptied the history, a colour change cannot be undone: the undo removes
   * the change's entry, hands back `undefined` and the new colour stays.
   */
  lemma ChangeAfterEmptiedHistoryStays(state: ColorState, color: string)
    ensures var changed := state["selectedColor" := color];
            var h' := Removed(Appended([], changed));
            h' == [] && changed + LastOrUndefined(h').GetOr(map[]) == changed
  {
  }
}

=== FILE: user_sub_store.dfy ===
/**
 * The user sub-store of the substore example: a second search (of the displayed user's
 * repositories) nested under the page store, from which it takes the user and the request
 * functions.
 *
 * As in the page store, the debounce timer and the request are outside the model.
 */
module UserSubStore {

  import opened Wrappers
  import Page = SubstorePageStore

  datatype UserState<Item> = UserState(searchQuery: string, listItems: Option<seq<Item>>)

  /**
   * The store's props: the page's displayed user and its `utils`, which the subscription
   * gives, and the `entity` prop, which only `defaultProps` gives.
   */
  datatype UserStoreProps<User, Utils> = UserStoreProps(user: Option<User>, utils: Utils, entity: string)

  /** A repository search the debounced action sends: the user's repositories matching the query. */
  datatype RepoSearch<User> = RepoSearch(user: User, query: string)

  /** `UserStore.defaultProps.entity` */
  const DefaultEntity: string := "repo"

  /** `UserStore.initialState`: empty query, no results. */
  function InitialState<Item>(): (s: UserState<Item>)
    ensures s.searchQuery == "" && s.listItems.None?
  {
    UserState("", None)
  }

  /** `UserStore.defaultProps` under the subscribed props: `entity` is `'repo'`. */
  function DefaultProps<User, Utils>(user: Option<User>, utils: Utils): (props: UserStoreProps<User, Utils>)
    ensures props.entity == "repo" && props.user == user && props.utils == utils
  {
    UserStoreProps(user, utils, DefaultEntity)
  }

  /**
   * The subscription mapping from the page store's state and props; it does not pass
   * `entity`, so the sub-store keeps its default `'repo'` rather than the page's `'user'`.
   */
  function SubscriberProps<User, Item, Utils>(pageState: Page.PageState<User, Item>, pageProps: Page.PageProps<Utils>)
    : (props: UserStoreProps<User, Utils>)
    ensures props.user == pageState.userToDisplay && props.utils == pageProps.utils
    ensures props.entity == "repo"
  {
    DefaultProps(pageState.userToDisplay, pageProps.utils)
  }

  class UserStore<User, Item> {
    var searchQuery: string
    var listItems: Option<seq<Item>>

    function State(): UserState<Item>
      reads this
    {
      UserState(searchQuery, listItems)
    }

    constructor ()
      ensures State() == InitialState()
    {
      searchQuery, listItems := "", None;
    }

    /** The action `search(searchQuery = '')`: set the query, then request its debounced search. */
    method Search(query: Option<string>) returns (requested: string)
      modifies this
      ensures requested == query.GetOr("")
      ensures State() == old(State()).(searchQuery := requested)
    {
      searchQuery := query.GetOr("");
      requested := searchQuery;
    }

    /** The action `reset`: `search()`, a search for the empty query. */
    method Reset() returns (requested: string)
      modifies this
      ensures requested == ""
      ensures State() == old(State()).(searchQuery := "")
    {
      requested := Search(None);
    }

    /**
     * The debounced action: set the query and mark the results as being fetched, then search
     * the repositories of `props.user`. Without a user, reading its `login` throws after the
     * state was set, and no request is sent (`None`).
     */
    method DebouncedSearch<Utils>(query: string, props: UserStoreProps<User, Utils>) returns (sent: Option<RepoSearch<User>>)
      modifies this
      ensures State() == old(State()).(searchQuery := query, listItems := None)
      ensures props.user.None? ==> sent.None?
      ensures props.user.Some? ==> sent == Some(RepoSearch(props.user.value, query))
    {
      searchQuery, listItems := query, None;
      sent := match props.user
        case None => None
        case Some(user) => Some(RepoSearch(user, query));
    }

    /** The response handler: `setState({listItems: results.items || []})`. */
    method ReceiveResults(items: Option<seq<Item>>)
      modifies this
      ensures State() == old(State()).(listItems := Some(items.GetOr([])))
    {
      listItems := Some(items.GetOr([]));
    }
  }
}

=== FILE: wrappers.dfy ===
/** Optional values: `None` stands for JavaScript's `undefined` / `null`, or for an omitted argument. */
module Wrappers {

  datatype Option<+T> = None | Some(value: T) {

    /** The value, or `default` when there is none (a JavaScript default parameter, or `x || default`). */
    function GetOr(default: T): T {
      match this
      case Some(v) => v
      case None => default
    }
  }
}
